=== FILE: README.md ===
# Instagram video relay bot, modelled in Dafny

The repository is a Telegram bot, in a webhook variant (`app.py`) and a polling variant
(`instagram_bot.py`). It takes a chat message holding an Instagram post link and finds the
post's shortcode. It then asks two Instagram endpoints for a direct video URL, downloads
the video into memory and uploads it back to the chat. Both files contain the same
request logic line for line, so one model covers both. The table below cites each file
separately.

The model covers the following parts.

- **Shortcode extractor** (`extract_shortcode`), in `shortcode.dfy`, over the
  leftmost-search engine of `scan.dfy`. Both regular expressions are written as explicit
  matchers anchored at one position. This includes rule 1's optional
  `(?:https?://)?(?:www\.)?`, which is tried in the order the regex engine backtracks.
  `re.search` is the leftmost position where the matcher succeeds. `re.IGNORECASE` is
  ASCII case folding.
- **Resolver** (`get_video_url_async`), in `resolver.dfy`.
  - Each upstream reply is an input value of type `Fetch`. It is either no response at
    all, or a status plus a body that may fail to decode.
  - JSON bodies are a `Json` datatype with Python truthiness (`json.dfy`).
  - Every exception a strategy swallows is the `None` result of that strategy.
  - Strategy 1 reads the legacy `graphql.shortcode_media` shape.
  - Strategy 2 scans the embed page with `src="…\.mp4…"` first and `video_url":"…"`
    second. It then replaces `\u0026` with `&`.
  - The request trace (`Resolved.requests`) records which endpoints were asked, in order.
- **Message handler** (`handle_message`), in `handler.dfy`.
  - The host check is done on the stripped text.
  - The extractor decides between the two rejection replies and going on.
  - A falsy video URL is reported with the resolver's caption.
  - The download is a `Fetch` of a chunk sequence.
  - The caption is finalised (`caption[:1000]` or the default).
  - The outcome is one `Reply` plus every URL requested.
  - `HandleMessage` runs these steps as a method and is proved equal to the `Handle`
    specification.
- **In-memory download** (`download.dfy`). `BytesIO` is the class `VideoBuffer`, with a
  contents field and a position field. `write` overwrites at the position and `seek(0)`
  rewinds. The chunk loop `DownloadToBuffer` is proved to leave the in-order
  concatenation of all chunks, with no size limit.

Python strings are Dafny strings, so slicing and length count code points, as Python
does; lone surrogates are the one exception (see "## Left out").

In an embed-page URL only `\u0026` is decoded; `\/` is left as it is
(`OnlyAmpEscapeIsDecoded`). A `video_url":"https:\/\/x.cdn\/v.mp4"` page therefore
yields `https:\/\/x.cdn\/v.mp4`.

## Model

| member | source | states |
|---|---|---|
| Scan.FindFirst | app.py:55 | the position found is the leftmost where the matcher succeeds: it succeeds there and at no earlier position, and `None` means it succeeds nowhere |
| Scan.Search | app.py:55-57 | `re.search(...).group(1)`: no result exactly when the matcher fails at every start position; a result is the matcher's capture at some position with no match before it, that is, at the leftmost match; the embed page is searched the same way at app.py:101-103, and the same code is at instagram_bot.py:49-51 |
| Scan.FindFirstIs | app.py:55 | a position where the matcher succeeds, with no success before it, is the one the search finds |
| Scan.SearchNoneIff | app.py:55 | a search finds nothing exactly when the matcher fails at every position |
| Scan.SearchSkip | app.py:55 | positions where nothing matches can be skipped without changing the search result |
| Scan.SearchAfterPrefix | app.py:55 | a prefix where the matcher never succeeds does not change the search result |
| Shortcode.MarkerLen | app.py:51-52 | a marker match starts with `instagram.com/` (any ASCII case) and its length stays within the text |
| Shortcode.MarkerStartsWithI | app.py:51-52 | every marker match begins with a character that folds to `i` |
| Shortcode.Rule1Core | app.py:51 | rule 1 captures exactly 11 characters from `[A-Za-z0-9_-]`, right after a marker |
| Shortcode.PrefixTaken | app.py:51 | the optional scheme/`www.` prefix is taken only when the rest of rule 1 then matches |
| Shortcode.PrefixHasNoI | app.py:51 | no character of a taken prefix folds to `i` |
| Shortcode.LiteralHasNoI | app.py:51 | text matching an `i`-free literal of the prefix holds no `i`/`I` in that stretch |
| Shortcode.PrefixSpanHasNoI | app.py:51 | the prefix taken by a rule 1 match at any position of a text holds no `i`/`I` |
| Shortcode.FirstCharBlocks | app.py:51 | a text whose first character folds differently does not start with the literal, so a marker start rules out every non-empty prefix |
| Shortcode.Rule1Here | app.py:51 | a rule 1 match at a position captures 11 token characters |
| Shortcode.Rule1HereAtCore | app.py:51 | where the marker itself starts, rule 1 with its optional prefix gives the same capture as without it |
| Shortcode.PrefixNeverChangesCapture | app.py:51 | searching with the optional `https?://` and `www.` gives the same capture as searching from the marker alone |
| Shortcode.Rule1HereNeedsCore | app.py:51 | a rule 1 match is a match of its core right after the prefix it took |
| Shortcode.LeftmostMatchesAgree | app.py:51 | when the core first matches at a position, the leftmost match of all of rule 1 captures that same text |
| Shortcode.Rule2Here | app.py:52 | a rule 2 match sits on a marker and captures a non-empty run without `/` or `?` |
| Shortcode.PathRunClean | app.py:52 | the run rule 2 captures holds no `/` and no `?` |
| Shortcode.Rule1CoreImpliesRule2 | app.py:51-52 | wherever rule 1 matches, rule 2 matches too |
| Shortcode.Extract | app.py:48-58 | a shortcode is non-empty and has no `/` or `?`; when rule 1 matches anywhere the result is its 11-token-character capture, otherwise it is rule 2's leftmost capture; the same code is at instagram_bot.py:41-52 |
| Shortcode.ExtractNoneIff | app.py:54-58 | the result is `None` exactly when rule 2 matches at no position, so `None` only when neither rule matches |
| Shortcode.ExtractNeedsHost | app.py:51-52 | text without `instagram.com` in any letter case yields `None` |
| Shortcode.MarkerAtParts | app.py:51-52 | a host spelling `instagram.com` and a kind spelling `p`, `reel` or `tv` in any case form a marker of that length |
| Shortcode.MarkerHasParts | app.py:51-52 | conversely, every marker is an any-case `instagram.com`, `/`, a kind among `p`, `reel` and `tv` in any case, and `/`; a path such as `stories/` or a profile name never forms one; the same code is at instagram_bot.py:44-45 |
| Shortcode.Rule1CoreAfterMarker | app.py:51 | right after a marker, rule 1 captures the first 11 characters exactly when they are all token characters |
| Shortcode.Rule2AfterMarker | app.py:52 | right after a marker, rule 2 captures the longest run without `/` or `?` when that run is non-empty |
| Shortcode.SearchPastLeadingMarker | app.py:55 | when no match starts before a marker, the search result is the match at the marker or else the search after it |
| Shortcode.MarkerFreeTail | app.py:55 | no match of a marker-anchored rule starts inside the marker |
| Shortcode.MarkerTailHasNoI | app.py:51-52 | after its first character, a marker contains nothing that folds to `i` |
| Shortcode.ExtractAfterLeadingMarker | app.py:51-57 | with no marker before the first one, the shortcode is decided by the text after that marker alone |
| Shortcode.CanonicalMarker | app.py:51-57 | for the lower-case `instagram.com/p/` form, the shortcode is decided by the text after the marker |
| Shortcode.ShortcodeAfterLeadingMarker | app.py:50-57 | for a link whose first marker is `host/kind/`, 11 leading token characters give exactly those 11, even when the token runs on; otherwise, when rule 1 fails everywhere and the text after the marker starts with a character other than `/` and `?`, the result is the longest run without `/` or `?`; in every case it equals the result for the lower-case `instagram.com/p/` form; the same code is at instagram_bot.py:43-51 |
| Shortcode.NoIMeansNoMarker | app.py:51-52 | text without `i`/`I` holds no marker start |
| Shortcode.SchemeHasNoI | app.py:51 | none of `https://www.`, `https://`, `http://www.`, `http://`, `www.` holds an `i`/`I` |
| Shortcode.SchemeAndWwwNeverMatter | app.py:51-55 | a link that starts with `https://`, `http://`, `www.`, a scheme and `www.`, or nothing, followed directly by host and post kind in any ASCII case, has the shortcode of the plain `instagram.com/p/` form; the prefix must sit at the start of the text, before the first host (with an earlier marker in the text, `www.` before a later host can change the result); the same code is at instagram_bot.py:44-49 |
| Strings.RunWithout | app.py:52 | the greedy `[^/?]+` run: no stop character inside it, and a stop character or the end right after it |
| Strings.RunWithoutStopsAt | app.py:52 | a run free of stop characters, followed by a stop character, is exactly what the greedy run takes (used for the page patterns' `[^"]+` as well) |
| Strings.Contains | app.py:154 | Python's `x in url`: the literal occurs in the text exactly when it starts at some position of the text, the end included; the same code is at instagram_bot.py:146 |
| Strings.IsSpace | app.py:152 | the characters `strip()` removes are exactly the 29 that Python's `str.isspace()` accepts: U+0009 to U+000D, U+001C to U+0020, U+0085, U+00A0, U+1680, U+2000 to U+200A, U+2028, U+2029, U+202F, U+205F and U+3000; the same code is at instagram_bot.py:144 |
| Strings.StripStart | app.py:152 | `lstrip()` removes exactly the leading whitespace: what it drops is whitespace and what it keeps does not start with whitespace |
| Strings.StripEnd | app.py:152 | `rstrip()` removes exactly the trailing whitespace: what it drops is whitespace and what it keeps does not end with whitespace |
| Strings.Strip | app.py:152 | `strip()` leaves the slice between a whitespace-only head and a whitespace-only tail, and that slice neither begins nor ends with whitespace |
| Strings.AbsentFirstCharMeansAbsent | app.py:154 | a literal whose first character is missing from the text is not a substring of it |
| Handler.Classify | app.py:152-161 | the text is "not a link" exactly when the stripped text contains neither `instagram.com` nor `instagr.am` (case-sensitive); "bad link" exactly when it does but the extractor finds nothing; otherwise the decision carries the extractor's non-empty shortcode; the same code is at instagram_bot.py:144-153 |
| JsonValues.Truthy | app.py:168 | Python truthiness: a value is false exactly when it is one of `None`, `False`, `0`, `""`, `[]` and `{}`; the same test is made on `is_video` (app.py:79), on `edges` (app.py:84) and on the caption (app.py:196), and at instagram_bot.py:161 |
| JsonValues.Get | app.py:79-80 | `dict.get(key)`: the value under the key when present, otherwise `None`, which is falsy; the same code is at instagram_bot.py:73-74 |
| Handler.ShortHostAloneIsBadLink | app.py:154-161 | text that contains `instagr.am` but no `instagram.com` in any letter case gets the bad-link reply (without that second condition the claim fails: `INSTAGRAM.COM/p/ABCDEFGHIJK instagr.am` passes the host check only through `instagr.am`, yet its shortcode is found); the same code is at instagram_bot.py:146-153 |
| Handler.NoLowerCaseIIsNotALink | app.py:154-156 | text with no lower-case `i` is never taken for a link |
| Handler.ExtractFromBareMarker | app.py:51 | a link that starts at its marker with 11 token characters yields those 11 |
| Handler.UpperCaseLinkIsNotALink | app.py:154-156 | a link written without lower-case `i` fails the host check |
| Handler.HostCheckIsCaseSensitive | app.py:154-158 | a link such as `INSTAGRAM.COM/REEL/…` holds a shortcode the extractor finds, yet it is rejected as not a link |
| Resolver.LegacyMediaOf | app.py:77-79 | `data['graphql']['shortcode_media']` as a dict: found exactly when `data` is a dict whose `graphql` value is a dict whose `shortcode_media` value is a dict, and then it is that dict; a missing `graphql` key leaves strategy 1 with nothing; the same code is at instagram_bot.py:71-73 |
| Resolver.CaptionOf | app.py:81-85 | the caption is `""` when the media has no `edge_media_to_caption` key or its `edges` are falsy; with a non-empty list of edges it is the first edge's `node.text`; every other shape (no `edges` key, truthy `edges` that are not a list, a first edge without `node.text`) raises, which ends the strategy with nothing; the same code is at instagram_bot.py:75-79 |
| Resolver.ApiUrl | app.py:72 | strategy 1's URL is `https://www.instagram.com/p/`, the shortcode, then `/?__a=1&__d=dis`; the same code is at instagram_bot.py:66 |
| Resolver.EmbedUrl | app.py:91 | strategy 2's URL is `https://www.instagram.com/p/`, the shortcode, then `/embed/captioned/`; the same code is at instagram_bot.py:85 |
| Resolver.EndpointsNamePost | app.py:72-91 | the two endpoint URLs always differ, and each determines the shortcode it was built from |
| Resolver.Strategy1 | app.py:72-88 | strategy 1 succeeds only on status 200 with a decoded body in the legacy shape; on such a body it succeeds exactly when `is_video` is truthy and the caption read does not raise, so a raising caption read hands over to strategy 2; a result carries `video_url` (`None` when missing) and the caption that read gives; the same code is at instagram_bot.py:66-82 |
| Resolver.VideoPostStopsAtStrategy1 | app.py:77-86 | a legacy video post returns at once with its `video_url` and the caption read from its first edge (`""` without edges), and the embed page is never requested; the same code is at instagram_bot.py:71-80 |
| Resolver.ApiFailureFallsThrough | app.py:73-88 | no response, a non-200 status or an undecodable body on strategy 1 hands the result to strategy 2, and both endpoints are requested |
| Resolver.SrcMp4Here | app.py:97 | a capture of `src="([^"]+\.mp4[^"]*)"` is non-empty, has no `"` and contains `.mp4` after its first character, and the text at the match position is `src="`, the capture and `"`; the same code is at instagram_bot.py:92 |
| Resolver.VideoUrlHere | app.py:98 | a capture of `video_url":"([^"]+)"` is non-empty and has no `"`, and the text at the match position is `video_url":"`, the capture and `"`; the same code is at instagram_bot.py:93 |
| Resolver.SrcMp4At | app.py:97 | conversely, `src="c"` followed by anything matches with group `c` whenever `c` is non-empty, has no `"` and holds `.mp4` after its first character |
| Resolver.VideoUrlAt | app.py:98 | conversely, `video_url":"c"` followed by anything matches with group `c` whenever `c` is non-empty and has no `"` |
| Resolver.EmbedMatch | app.py:96-102 | the `.mp4` source pattern is tried first and wins whenever it matches anywhere; only otherwise the `video_url` pattern decides |
| Resolver.UnescapeAmp | app.py:103 | the replacement never lengthens the text, introduces no character but `&`, and keeps the first character unless an escape starts there; the same code is at instagram_bot.py:98 |
| Resolver.UnescapeAmpAfter | app.py:103 | each `\u0026` becomes exactly one `&`: for text `a` without an escape, `a`, the escape and `b` give `a`, `&` and the replacement of `b` |
| Resolver.UnescapeAmpPrefixBack | app.py:103 | a `&`-free prefix of the result was a prefix of the input |
| Resolver.UnescapeAmpPrefixKept | app.py:103 | a backslash-free prefix of the input survives into the result |
| Resolver.UnescapeAmpComplete | app.py:103 | no `\u0026` is left in the result |
| Resolver.UnescapeAmpIdentity | app.py:103 | text without `\u0026` comes back unchanged, so no other escape is decoded |
| Resolver.UnescapeAmpKeepsMp4 | app.py:97-103 | a `.mp4` in the capture is still in the URL after the replacement |
| Resolver.Strategy2 | app.py:91-106 | strategy 2 succeeds only on status 200 with a decoded page, and then exactly when one of the page patterns matches; the URL is the winning capture with every `\u0026` replaced, the caption `Instagram video`; the same code is at instagram_bot.py:85-101 |
| Resolver.EmbedPageResult | app.py:96-104 | on a page, strategy 2 fails exactly when neither pattern matches anywhere; its URL has no `"` and no `\u0026`, and contains `.mp4` when the source pattern matched |
| Resolver.OnlyAmpEscapeIsDecoded | app.py:103-104 | a `video_url` capture without `\u0026` is returned verbatim, `\/` included |
| Resolver.VideoUrlPageIsResolved | app.py:98-104 | a page holding `video_url":"c"`, with `c` non-empty and free of `"`, always gives strategy 2 a video URL |
| Resolver.SrcMp4PageIsResolved | app.py:97-104 | a page holding `src="c"`, with `c` free of `"` and holding `.mp4` after its first character, always gives strategy 2 a URL that contains `.mp4` |
| Resolver.Resolve | app.py:61-108 | strategy 1's endpoint is always asked first; the embed page is asked exactly when strategy 1 gives nothing; the first strategy with a result decides, otherwise the result is `(None, "Video topilmadi")`; the same code is at instagram_bot.py:55-103 |
| Handler.FinalCaption | app.py:196 | a falsy caption becomes the default; a string or list caption is cut to its first 1000 elements; a sent text caption has between 1 and 1000 characters; other truthy values fail to slice; the same code is at instagram_bot.py:190 |
| Handler.Deliver | app.py:168-206 | a falsy URL is reported with the resolver's caption and nothing is downloaded; a truthy URL that is not text raises; a text URL is requested, and then no response, an undecodable body or a caption that cannot be sliced raise, a status other than 200 gives the download-failed reply, and a 200 body is sent joined, with the finalised caption; the same code is at instagram_bot.py:161-200 |
| Handler.Handle | app.py:150-213 | a rejected text gets its reply and causes no request at all; accepted text goes on to resolution and delivery; the same code is at instagram_bot.py:143-206 |
| Handler.HandleMessage | app.py:150-206 | the step-by-step handler, whose download fills a buffer chunk by chunk, ends with exactly the reply and requests of `Handle` |
| Handler.NothingFoundIsReported | app.py:166-172 | when neither strategy gives a result the user sees "Video topilmadi" and only the two endpoints were requested |
| Handler.MissingVideoUrlShowsCaption | app.py:79-86 | a legacy video post without `video_url` still ends the search, and the user is shown the post's caption as the not-found text |
| Handler.EmbedVideoIsSent | app.py:174-199 | with strategy 1 failing and an `.mp4` source on the embed page, the third request is that source after `\u0026` replacement, and the whole body is sent with caption `Instagram video` |
| Handler.EmbedDelivery | app.py:168-199 | after the same resolution, delivery requests the replaced `.mp4` source third and sends the joined body with caption `Instagram video` |
| Handler.EmbedCaptionIsFinal | app.py:196 | the caption `Instagram video` is sent as it stands |
| Handler.EmbedResolution | app.py:91-104 | with strategy 1 failing and an `.mp4` source on the embed page, the resolver returns that source after replacement, with caption `Instagram video`, having asked both endpoints |
| Handler.DeliverSends | app.py:180-199 | a non-empty text URL, a caption that can be finalised and a 200 download give the video sent with the finalised caption, after requesting the URL |
| Download.ConcatAppend | app.py:186-188 | joining two runs of chunks is joining each and appending |
| Download.ConcatKeepsEachChunk | app.py:186-188 | every chunk sits unchanged in the joined bytes, right after the chunks before it |
| Download.NonEmpty | app.py:187 | the chunks the `if chunk:` guard keeps are non-empty chunks of the stream |
| Download.SkippingEmptyChunksIsHarmless | app.py:187-188 | skipping empty chunks does not change the joined bytes, so the bytes the guarded loop writes are all the bytes of the stream |
| Download.Overwrite | app.py:188 | `BytesIO.write` keeps the bytes before the position, puts the chunk at the position and keeps or extends what follows |
| Download.OverwriteAtEnd | app.py:188 | writing at the end appends |
| Download.VideoBuffer.constructor | app.py:184 | a new buffer is empty and positioned at 0 |
| Download.VideoBuffer.Write | app.py:188 | a write replaces the contents by the overwrite at the old position, advances the position by the chunk length and returns that length |
| Download.VideoBuffer.Rewind | app.py:190 | `seek(0)` moves to the start and leaves the contents as they were |
| Download.DownloadToBuffer | app.py:183-190 | the buffer ends up holding the in-order concatenation of the non-empty chunks, which is that of all chunks, whatever their number and size, positioned at 0; the same code is at instagram_bot.py:177-184 |

## Left out

- Telegram calls are not modelled: `reply_to`, `edit_message_text`, `send_video` and `delete_message`. The handler's outcome is the `Reply` they would show. The intermediate progress texts ("Video qidirilmoqda", "Video yuklanmoqda") and the deletion of the progress message are not recorded.
- The command handlers for `/start`, `/help` and `/status` are left out. They only send fixed text.
- The Flask routes, webhook set-up, start-up code and polling loop are left out. They are process and network plumbing.
- The HTTP layer is not modelled: aiohttp, requests, `asyncio.run` and the timeouts. Every reply is an input value. Request headers and the random user agent (`get_random_user_agent`) affect no modelled result.
- Logging, environment variables and the token check are left out.
- Resolver.Resolve: does not model the outer `except Exception` of `get_video_url_async`. That path returns `(None, "Xato: …")` when setting up the HTTP session fails, and session set-up is not modelled.
- Handler.Handle: the error path is one `ErrorReported` outcome. The two files report it differently: `app.py` replies to the message, while `instagram_bot.py` edits the progress message. The exception text is not modelled.
- Handler.Handle: messages without text are not modelled, so the text is always a string. In `app.py` such a message would raise inside the `try`. In `instagram_bot.py` it would raise before the `try`.
- Handler.Deliver: a truthy `video_url` that is not a string is taken as the error path. `requests` turns it into text that is not a URL. A string URL that `requests` rejects is a `NoResponse` download.
- Handler.FinalCaption: what Telegram does with a list caption is not modelled. Python slices a list without error.
- Shortcode.Extract: `re.IGNORECASE` is modelled as ASCII case folding only. Python's Unicode folds, such as the long s or the Kelvin sign, are not modelled.
- Python strings may hold lone surrogates (a JSON caption `"\ud83d"` decodes to one), and a Dafny `char` cannot. Such captions and page texts are not modelled.

=== FILE: download.dfy ===
/**
 * The download step of `handle_message`: the streamed reply is read chunk
 * by chunk into an in-memory `BytesIO` buffer, which is then rewound so the
 * upload reads it from the start.
 */
module Download {

  newtype byte = x: int | 0 <= x < 256

  /** One piece of the body as `iter_content` yields it. */
  type Chunk = seq<byte>

  /** The chunks joined in the order they arrived. */
  function Concat(chunks: seq<Chunk>): seq<byte>
  {
    if chunks == [] then [] else Concat(chunks[..|chunks| - 1]) + chunks[|chunks| - 1]
  }

  /** Joining two runs of chunks is joining each and appending. */
  lemma {:induction false} ConcatAppend(a: seq<Chunk>, b: seq<Chunk>)
    ensures Concat(a + b) == Concat(a) + Concat(b)
    decreases |b|
  {
    if b != [] {
      var last := |b| - 1;
      assert (a + b)[..|a + b| - 1] == a + b[..last];
      ConcatAppend(a, b[..last]);
      assert b[..last] + [b[last]] == b;
    } else {
      assert a + b == a;
    }
  }

  /** Every chunk sits in the joined bytes, unchanged, right after the chunks that came before it. */
  lemma ConcatKeepsEachChunk(chunks: seq<Chunk>, i: nat)
    requires i < |chunks|
    ensures var at := |Concat(chunks[..i])|;
      at + |chunks[i]| <= |Concat(chunks)| && Concat(chunks)[at..at + |chunks[i]|] == chunks[i]
  {
    assert chunks == chunks[..i] + [chunks[i]] + chunks[i + 1..];
    ConcatAppend(chunks[..i] + [chunks[i]], chunks[i + 1..]);
    ConcatAppend(chunks[..i], [chunks[i]]);
    assert Concat([chunks[i]]) == chunks[i] by {
      assert [chunks[i]][..0] == [];
    }
  }

  /** The chunks that are not empty, in order: the ones the `if chunk:` guard writes. */
  function NonEmpty(chunks: seq<Chunk>): (r: seq<Chunk>)
    ensures |r| <= |chunks|
    ensures forall k :: 0 <= k < |r| ==> r[k] != [] && r[k] in chunks
  {
    if chunks == [] then []
    else if chunks[0] == [] then NonEmpty(chunks[1..])
    else [chunks[0]] + NonEmpty(chunks[1..])
  }

  /** Skipping empty chunks does not change what is written. */
  lemma {:induction false} SkippingEmptyChunksIsHarmless(chunks: seq<Chunk>)
    ensures Concat(NonEmpty(chunks)) == Concat(chunks)
    decreases |chunks|
  {
    if chunks != [] {
      assert chunks == [chunks[0]] + chunks[1..];
      ConcatAppend([chunks[0]], chunks[1..]);
      SkippingEmptyChunksIsHarmless(chunks[1..]);
      if chunks[0] != [] {
        ConcatAppend([chunks[0]], NonEmpty(chunks[1..]));
      }
      assert Concat([chunks[0]]) == chunks[0] by {
        assert [chunks[0]][..0] == [];
      }
    }
  }

  /**
   * What `BytesIO.write` leaves behind when it writes `chunk` at position
   * `pos` of `data`: the bytes before `pos` are kept, the chunk replaces the
   * bytes it covers and the buffer grows when the chunk runs past its end.
   */
  function Overwrite(data: seq<byte>, pos: nat, chunk: Chunk): (r: seq<byte>)
    requires pos <= |data|
    ensures |r| == if pos + |chunk| <= |data| then |data| else pos + |chunk|
    ensures r[..pos] == data[..pos]
    ensures r[pos..pos + |chunk|] == chunk
    ensures pos + |chunk| <= |data| ==> r[pos + |chunk|..] == data[pos + |chunk|..]
  {
    if pos + |chunk| <= |data| then data[..pos] + chunk + data[pos + |chunk|..]
    else data[..pos] + chunk
  }

  /** Writing at the end of the buffer appends. */
  lemma OverwriteAtEnd(data: seq<byte>, chunk: Chunk)
    ensures Overwrite(data, |data|, chunk) == data + chunk
  {
    var r := Overwrite(data, |data|, chunk);
    assert r == r[..|data|] + r[|data|..];
  }

  /** The `BytesIO` object: its contents and its current position. */
  class VideoBuffer {
    var data: seq<byte>
    var pos: nat

    /** The position never lies past the end: the buffer is only written and rewound. */
    predicate Valid()
      reads this
    {
      pos <= |data|
    }

    /** `BytesIO()`: empty, positioned at the start. */
    constructor ()
      ensures Valid()
      ensures data == [] && pos == 0
    {
      data := [];
      pos := 0;
    }

    /** `write(chunk)`: writes at the current position, moves past what it wrote and returns the byte count. */
    method Write(chunk: Chunk) returns (n: nat)
      requires Valid()
      modifies this
      ensures Valid()
      ensures data == Overwrite(old(data), old(pos), chunk)
      ensures pos == old(pos) + |chunk|
      ensures n == |chunk|
    {
      data := Overwrite(data, pos, chunk);
      pos := pos + |chunk|;
      n := |chunk|;
    }

    /** `seek(0)`: back to the start, contents untouched. */
    method Rewind()
      requires Valid()
      modifies this
      ensures Valid()
      ensures data == old(data) && pos == 0
    {
      pos := 0;
    }
  }

  /**
   * The chunk loop: every non-empty chunk is written in arrival order, then
   * the buffer is rewound. The buffer ends up holding exactly the non-empty
   * chunks joined, which is all the chunks joined, however many there were:
   * no size limit is applied.
   */
  method DownloadToBuffer(chunks: seq<Chunk>) returns (buffer: VideoBuffer)
    ensures fresh(buffer)
    ensures buffer.Valid()
    ensures buffer.data == Concat(chunks)
    ensures buffer.data == Concat(NonEmpty(chunks))
    ensures buffer.pos == 0
  {
    buffer := new VideoBuffer();
    for i := 0 to |chunks|
      invariant buffer.Valid()
      invariant buffer.data == Concat(chunks[..i])
      invariant buffer.pos == |buffer.data|
    {
      assert chunks[..i + 1][..i] == chunks[..i];
      if chunks[i] != [] {
        OverwriteAtEnd(buffer.data, chunks[i]);
        var _ := buffer.Write(chunks[i]);
      }
    }
    assert chunks[..|chunks|] == chunks;
    SkippingEmptyChunksIsHarmless(chunks);
    buffer.Rewind();
  }
}

=== FILE: handler.dfy ===
/**
 * `handle_message`: what the bot does with one text message, given the
 * replies of the two endpoints the resolver asks and the reply to the video
 * download. Telegram calls become the `Reply` the user ends up with.
 */
module Handler {
  import opened Wrappers
  import opened Strings
  import opened Scan
  import opened Shortcode
  import opened JsonValues
  import opened Resolver
  import opened Download

  /** The outcome of the checks at the top of the handler. */
  datatype Decision = NotALink | BadLink | Proceed(code: string)

  /**
   * The stripped text must contain `instagram.com` or `instagr.am` (a
   * case-sensitive test), and then the extractor must find a shortcode; a
   * shortcode is never empty, so `not shortcode` only catches `None`.
   */
  function Classify(text: string): (d: Decision)
    ensures var url := Strip(text);
      && (d.NotALink? <==> !Contains(url, "instagram.com") && !Contains(url, "instagr.am"))
      && (d.BadLink? <==> (Contains(url, "instagram.com") || Contains(url, "instagr.am")) && Extract(url).None?)
      && (d.Proceed? ==> Extract(url) == Some(d.code) && d.code != [] && NoSlashOrQuery(d.code))
  {
    var url := Strip(text);
    if !(Contains(url, "instagram.com") || Contains(url, "instagr.am")) then NotALink
    else
      match Extract(url)
      case None => BadLink
      case Some(code) => Proceed(code)
  }

  /** The extractor needs `instagram.com` in some letter case: a text that only has the short host is a bad link. */
  lemma ShortHostAloneIsBadLink(text: string)
    requires Contains(Strip(text), "instagr.am")
    requires !ContainsCI(Strip(text), "instagram.com")
    ensures Classify(text) == BadLink
  {
    ExtractNeedsHost(Strip(text));
  }

  /** Both host literals start with a lower-case `i`: text without one is never taken for a link. */
  lemma NoLowerCaseIIsNotALink(text: string)
    requires 'i' !in Strip(text)
    ensures Classify(text) == NotALink
  {
    AbsentFirstCharMeansAbsent(Strip(text), "instagram.com");
    AbsentFirstCharMeansAbsent(Strip(text), "instagr.am");
  }

  lemma ExtractFromBareMarker(host: string, kind: string, rest: string)
    requires MarkerParts(host, kind)
    requires |rest| >= 11 && AllToken(rest[..11])
    ensures Extract(host + "/" + kind + "/" + rest) == Some(rest[..11])
  {
    assert host + "/" + kind + "/" + rest == [] + host + "/" + kind + "/" + rest;
    ShortcodeAfterLeadingMarker([], host, kind, rest);
  }

  lemma UpperCaseLinkIsNotALink(host: string, kind: string, rest: string)
    requires 'i' !in host + "/" + kind + "/" + rest
    ensures Classify(host + "/" + kind + "/" + rest) == NotALink
  {
    var url := host + "/" + kind + "/" + rest;
    assert forall c :: c in Strip(url) ==> c in url;
    NoLowerCaseIIsNotALink(url);
  }

  /**
   * The host check is case-sensitive while the extractor is not: a link
   * written `INSTAGRAM.COM/reel/...` holds a shortcode the extractor would
   * find, yet the text is turned away as not being a link.
   */
  lemma HostCheckIsCaseSensitive(host: string, kind: string, rest: string)
    requires MarkerParts(host, kind)
    requires |rest| >= 11 && AllToken(rest[..11])
    requires 'i' !in host + "/" + kind + "/" + rest
    ensures Extract(host + "/" + kind + "/" + rest) == Some(rest[..11])
    ensures Classify(host + "/" + kind + "/" + rest) == NotALink
  {
    ExtractFromBareMarker(host, kind, rest);
    UpperCaseLinkIsNotALink(host, kind, rest);
  }

  const CaptionLimit := 1000

  /** The caption sent when the resolved one is empty. */
  const DefaultCaption := "\U{1F4F9} Instagram video"

  /**
   * `caption[:1000] if caption else "📹 Instagram video"`. A truthy caption
   * that Python cannot slice (a number, `True`, an object) raises, which the
   * model writes as `None`; a list is sliced like a string.
   */
  function FinalCaption(caption: Json): (r: Option<Json>)
    ensures r.None? <==> Truthy(caption) && !caption.JStr? && !caption.JArr?
    ensures !Truthy(caption) ==> r == Some(JStr(DefaultCaption))
    ensures caption.JStr? && Truthy(caption) ==>
      r.Some? && r.value.JStr?
      && |r.value.str| == (if |caption.str| <= CaptionLimit then |caption.str| else CaptionLimit)
      && r.value.str == caption.str[..|r.value.str|]
    ensures caption.JArr? && Truthy(caption) ==>
      r.Some? && r.value.JArr?
      && |r.value.items| == (if |caption.items| <= CaptionLimit then |caption.items| else CaptionLimit)
      && r.value.items == caption.items[..|r.value.items|]
    ensures r.Some? && r.value.JStr? ==> 0 < |r.value.str| <= CaptionLimit
  {
    if !Truthy(caption) then Some(JStr(DefaultCaption))
    else
      match caption
      case JStr(s) => Some(JStr(if |s| <= CaptionLimit then s else s[..CaptionLimit]))
      case JArr(items) => Some(JArr(if |items| <= CaptionLimit then items else items[..CaptionLimit]))
      case _ => None
  }

  /** What the user ends up seeing. */
  datatype Reply =
    | AskForLink                        // reply: ask for an Instagram link
    | InvalidLink                       // reply: the link is not a valid Instagram link
    | VideoNotFound(caption: Json)      // progress message edited to "❌ " and the resolver's caption
    | DownloadFailed                    // progress message edited: the video could not be downloaded
    | VideoSent(video: seq<byte>, caption: Json)  // video uploaded as a reply, progress message deleted
    | ErrorReported                     // an exception was caught and its text reported

  /** The reply together with every URL requested on the way, in order. */
  datatype Handled = Handled(reply: Reply, requests: seq<string>)

  /**
   * The handler after a shortcode was found and resolved: a falsy URL is
   * reported with the resolver's caption; otherwise the URL is downloaded
   * and, on status 200, the joined body is sent with the final caption.
   */
  function Deliver(found: Resolved, download: Fetch<seq<Chunk>>): (h: Handled)
    ensures !h.reply.AskForLink? && !h.reply.InvalidLink?
    ensures !Truthy(found.result.videoUrl) <==> h.reply == VideoNotFound(found.result.caption)
    ensures !(Truthy(found.result.videoUrl) && found.result.videoUrl.JStr?) ==> h.requests == found.requests
    ensures h.reply.VideoSent? ==>
      && download.Response? && download.status == 200 && download.body.Some?
      && h.reply.video == Concat(download.body.value)
      && Some(h.reply.caption) == FinalCaption(found.result.caption)
    // a truthy URL that is not text raises inside `requests.get`
    ensures Truthy(found.result.videoUrl) && !found.result.videoUrl.JStr? ==> h.reply == ErrorReported
    ensures Truthy(found.result.videoUrl) && found.result.videoUrl.JStr? ==>
      && h.requests == found.requests + [found.result.videoUrl.str]
      && (download.NoResponse? ==> h.reply == ErrorReported)
      && (download.Response? && download.status != 200 ==> h.reply == DownloadFailed)
      && (download.Response? && download.status == 200 && download.body.None? ==> h.reply == ErrorReported)
      && (download.Response? && download.status == 200 && download.body.Some? ==>
            h.reply == if FinalCaption(found.result.caption).None? then ErrorReported
                       else VideoSent(Concat(download.body.value), FinalCaption(found.result.caption).value))
  {
    var videoUrl := found.result.videoUrl;
    if !Truthy(videoUrl) then Handled(VideoNotFound(found.result.caption), found.requests)
    // `requests.get` turns any other value into text that is not a URL and raises
    else if !videoUrl.JStr? then Handled(ErrorReported, found.requests)
    else
      var requests := found.requests + [videoUrl.str];
      match download
      case NoResponse => Handled(ErrorReported, requests)
      case Response(status, body) =>
        if status != 200 then Handled(DownloadFailed, requests)
        else
          match body
          case None => Handled(ErrorReported, requests)
          case Some(chunks) =>
            match FinalCaption(found.result.caption)
            case None => Handled(ErrorReported, requests)
            case Some(caption) => Handled(VideoSent(Concat(chunks), caption), requests)
  }

  /** The whole handler, given the three upstream replies: nothing is fetched before the text passes both checks. */
  function Handle(text: string, api: Fetch<Json>, embed: Fetch<string>, download: Fetch<seq<Chunk>>): (h: Handled)
    ensures !Classify(text).Proceed? ==> h.requests == []
    ensures Classify(text).NotALink? <==> h.reply.AskForLink?
    ensures Classify(text).BadLink? <==> h.reply.InvalidLink?
    ensures Classify(text).Proceed? ==> h == Deliver(Resolve(Classify(text).code, api, embed), download)
  {
    match Classify(text)
    case NotALink => Handled(AskForLink, [])
    case BadLink => Handled(InvalidLink, [])
    case Proceed(code) => Deliver(Resolve(code, api, embed), download)
  }

  /** The handler run step by step, the download filling a buffer chunk by chunk. */
  method HandleMessage(text: string, api: Fetch<Json>, embed: Fetch<string>, download: Fetch<seq<Chunk>>)
    returns (h: Handled)
    ensures h == Handle(text, api, embed, download)
  {
    var decision := Classify(text);
    if decision.NotALink? {
      return Handled(AskForLink, []);
    }
    if decision.BadLink? {
      return Handled(InvalidLink, []);
    }
    var found := Resolve(decision.code, api, embed);
    var videoUrl := found.result.videoUrl;
    if !Truthy(videoUrl) {
      return Handled(VideoNotFound(found.result.caption), found.requests);
    }
    if !videoUrl.JStr? {
      return Handled(ErrorReported, found.requests);
    }
    var requests := found.requests + [videoUrl.str];
    if download.NoResponse? {
      return Handled(ErrorReported, requests);
    }
    if download.status != 200 {
      return Handled(DownloadFailed, requests);
    }
    if download.body.None? {
      return Handled(ErrorReported, requests);
    }
    var buffer := DownloadToBuffer(download.body.value);
    var caption := FinalCaption(found.result.caption);
    if caption.None? {
      return Handled(ErrorReported, requests);
    }
    h := Handled(VideoSent(buffer.data, caption.value), requests);
  }

  /** With neither strategy producing a result the user is told the video was not found, and nothing is downloaded. */
  lemma NothingFoundIsReported(text: string, api: Fetch<Json>, embed: Fetch<string>, download: Fetch<seq<Chunk>>)
    requires Classify(text).Proceed?
    requires Strategy1(api).None? && Strategy2(embed).None?
    ensures Handle(text, api, embed, download)
            == Handled(VideoNotFound(JStr(NotFoundText)), [ApiUrl(Classify(text).code), EmbedUrl(Classify(text).code)])
  {
  }

  /**
   * A legacy video post without a `video_url` stops at strategy 1 all the
   * same, and the user is shown the post's caption as the not-found text.
   */
  lemma MissingVideoUrlShowsCaption(text: string, data: Json, embed: Fetch<string>, download: Fetch<seq<Chunk>>)
    requires Classify(text).Proceed?
    requires LegacyMediaOf(data).Some?
    requires Truthy(Get(LegacyMediaOf(data).value, "is_video"))
    requires "video_url" !in LegacyMediaOf(data).value
    requires CaptionOf(LegacyMediaOf(data).value).Some?
    ensures Handle(text, Response(200, Some(data)), embed, download)
            == Handled(VideoNotFound(CaptionOf(LegacyMediaOf(data).value).value), [ApiUrl(Classify(text).code)])
  {
    VideoPostStopsAtStrategy1(Classify(text).code, data, embed);
  }

  /**
   * When strategy 1 gives nothing and the embed page has an `.mp4` source,
   * the third request downloads that source with every `\u0026` turned into
   * `&`, and the whole body is sent with the caption `Instagram video`.
   */
  lemma EmbedVideoIsSent(text: string, api: Fetch<Json>, html: string, chunks: seq<Chunk>)
    requires Classify(text).Proceed?
    requires Strategy1(api).None?
    requires Search(html, SrcMp4Here).Some?
    ensures var code := Classify(text).code;
      var url := UnescapeAmp(Search(html, SrcMp4Here).value);
      Handle(text, api, Response(200, Some(html)), Response(200, Some(chunks)))
      == Handled(VideoSent(Concat(chunks), JStr(EmbedCaption)), [ApiUrl(code), EmbedUrl(code), url])
  {
    EmbedDelivery(Classify(text).code, api, html, chunks);
  }

  /** The delivery half of `EmbedVideoIsSent`, for a given shortcode. */
  lemma EmbedDelivery(code: string, api: Fetch<Json>, html: string, chunks: seq<Chunk>)
    requires Strategy1(api).None?
    requires Search(html, SrcMp4Here).Some?
    ensures Deliver(Resolve(code, api, Response(200, Some(html))), Response(200, Some(chunks)))
            == Handled(VideoSent(Concat(chunks), JStr(EmbedCaption)),
                       [ApiUrl(code), EmbedUrl(code), UnescapeAmp(Search(html, SrcMp4Here).value)])
  {
    var found := EmbedResolution(code, api, html);
    EmbedCaptionIsFinal();
    DeliverSends(found, chunks);
    assert found.requests + [found.result.videoUrl.str]
           == [ApiUrl(code), EmbedUrl(code), UnescapeAmp(Search(html, SrcMp4Here).value)];
  }

  /** The embed page's caption is sent as it stands. */
  lemma EmbedCaptionIsFinal()
    ensures FinalCaption(JStr(EmbedCaption)) == Some(JStr(EmbedCaption))
  {
  }

  /** What the resolver answers when strategy 1 fails and the embed page has an `.mp4` source. */
  lemma EmbedResolution(code: string, api: Fetch<Json>, html: string) returns (found: Resolved)
    requires Strategy1(api).None?
    requires Search(html, SrcMp4Here).Some?
    ensures found == Resolve(code, api, Response(200, Some(html)))
    ensures found == Resolved(Resolution(JStr(UnescapeAmp(Search(html, SrcMp4Here).value)), JStr(EmbedCaption)),
                              [ApiUrl(code), EmbedUrl(code)])
    ensures found.result.videoUrl.str != []
  {
    found := Resolve(code, api, Response(200, Some(html)));
    assert EmbedMatch(html) == Search(html, SrcMp4Here);
  }

  /** A text URL and a caption that can be finalised: a 200 download sends the joined body. */
  lemma DeliverSends(found: Resolved, chunks: seq<Chunk>)
    requires found.result.videoUrl.JStr? && found.result.videoUrl.str != []
    requires FinalCaption(found.result.caption).Some?
    ensures Deliver(found, Response(200, Some(chunks)))
            == Handled(VideoSent(Concat(chunks), FinalCaption(found.result.caption).value),
                       found.requests + [found.result.videoUrl.str])
  {
  }
}

=== FILE: json.dfy ===
/** A decoded JSON document, as Python's `json` module hands it to the resolver. */
module JsonValues {

  /**
   * JSON values; numbers are reals, covering both the `int` and the `float`
   * Python decodes them to; an object is a dict, where a repeated key keeps
   * its last value.
   */
  datatype Json =
    | JNull
    | JBool(b: bool)
    | JNum(n: real)
    | JStr(str: string)
    | JArr(items: seq<Json>)
    | JObj(fields: map<string, Json>)

  /** Python truthiness: `None`, `False`, zero and empty containers are false. */
  predicate Truthy(j: Json)
    ensures !Truthy(j) <==> j in Falsy
  {
    match j
    case JNull => false
    case JBool(b) => b
    case JNum(n) => n != 0.0
    case JStr(s) => s != []
    case JArr(items) => items != []
    case JObj(fields) => fields != map[]
  }

  /** The values Python treats as false: one per kind of value, `None` included. */
  const Falsy: set<Json> := {JNull, JBool(false), JNum(0.0), JStr(""), JArr([]), JObj(map[])}

  /** `d.get(key)` on a dict: the value, or `None` when the key is missing. */
  function Get(d: map<string, Json>, key: string): (v: Json)
    ensures key in d ==> v == d[key]
    ensures key !in d ==> v == JNull && !Truthy(v)
  {
    if key in d then d[key] else JNull
  }
}

=== FILE: resolver.dfy ===
/**
 * `get_video_url_async`: two scraping strategies tried in order, each
 * request answered by an upstream reply that the model takes as input.
 * Every exception raised inside a strategy is swallowed and reads as "this
 * strategy found nothing"; the model writes those paths as `None`.
 */
module Resolver {
  import opened Wrappers
  import opened Strings
  import opened Scan
  import opened JsonValues

  /** The reply to one GET: no response at all (network error, timeout), or a status and a body that may fail to decode. */
  datatype Fetch<T> = NoResponse | Response(status: int, body: Option<T>)

  /** The pair `(video_url, caption)` the coroutine returns; `videoUrl` is `JNull` for Python's `None`. */
  datatype Resolution = Resolution(videoUrl: Json, caption: Json)

  /** A resolution together with the URLs requested to reach it, in order. */
  datatype Resolved = Resolved(result: Resolution, requests: seq<string>)

  const NotFoundText := "Video topilmadi"
  const EmbedCaption := "Instagram video"

  /** The pair returned when neither strategy produced a result. */
  const NotFound := Resolution(JNull, JStr(NotFoundText))

  /** Strategy 1's endpoint. */
  function ApiUrl(code: string): (u: string)
    ensures StartsWith(u, "https://www.instagram.com/p/") && |u| == 28 + |code| + 15
    ensures u[28..28 + |code|] == code && u[28 + |code|..] == "/?__a=1&__d=dis"
  {
    "https://www.instagram.com/p/" + code + "/?__a=1&__d=dis"
  }

  /** Strategy 2's endpoint. */
  function EmbedUrl(code: string): (u: string)
    ensures StartsWith(u, "https://www.instagram.com/p/") && |u| == 28 + |code| + 17
    ensures u[28..28 + |code|] == code && u[28 + |code|..] == "/embed/captioned/"
  {
    "https://www.instagram.com/p/" + code + "/embed/captioned/"
  }

  /** The two endpoints differ and each names its post: different shortcodes never share a URL. */
  lemma EndpointsNamePost(a: string, b: string)
    ensures ApiUrl(a) != EmbedUrl(b)
    ensures ApiUrl(a) == ApiUrl(b) ==> a == b
    ensures EmbedUrl(a) == EmbedUrl(b) ==> a == b
  {
    var u, v := ApiUrl(a), EmbedUrl(b);
    assert u[|u| - 1] == u[28 + |a|..][14] == 's';
    assert v[|v| - 1] == v[28 + |b|..][16] == '/';
  }

  // ---------------------------------------------------------------- strategy 1

  /**
   * `data['graphql']['shortcode_media']` as a dict. `None` covers both
   * `'graphql' in data` being false and the lookups or the later `.get`
   * raising because a value on the way is not a dict.
   */
  function LegacyMediaOf(data: Json): (r: Option<map<string, Json>>)
    ensures !(data.JObj? && "graphql" in data.fields) ==> r.None?
    ensures r.Some? <==>
      && data.JObj? && "graphql" in data.fields
      && data.fields["graphql"].JObj? && "shortcode_media" in data.fields["graphql"].fields
      && data.fields["graphql"].fields["shortcode_media"].JObj?
    ensures r.Some? ==> data.fields["graphql"].fields["shortcode_media"] == JObj(r.value)
  {
    if data.JObj? && "graphql" in data.fields then
      var graphql := data.fields["graphql"];
      if graphql.JObj? && "shortcode_media" in graphql.fields && graphql.fields["shortcode_media"].JObj? then
        Some(graphql.fields["shortcode_media"].fields)
      else None
    else None
  }

  /**
   * The caption strategy 1 reads from a video's media dict: `""` without an
   * `edge_media_to_caption` key or with falsy `edges`, otherwise
   * `edges[0]['node']['text']`; `None` where those lookups raise.
   */
  function CaptionOf(media: map<string, Json>): (r: Option<Json>)
    // without the caption key the caption stays empty, and nothing can raise
    ensures "edge_media_to_caption" !in media ==> r == Some(JStr(""))
    ensures r.None? ==> "edge_media_to_caption" in media
    // a caption holder that is not a dict with `edges` raises
    ensures ("edge_media_to_caption" in media
             && !(media["edge_media_to_caption"].JObj? && "edges" in media["edge_media_to_caption"].fields))
            ==> r.None?
    // falsy `edges`
    ensures ("edge_media_to_caption" in media && media["edge_media_to_caption"].JObj?
             && "edges" in media["edge_media_to_caption"].fields
             && !Truthy(media["edge_media_to_caption"].fields["edges"]))
            ==> r == Some(JStr(""))
    // truthy `edges` that are not a list: indexing them raises
    ensures ("edge_media_to_caption" in media && media["edge_media_to_caption"].JObj?
             && "edges" in media["edge_media_to_caption"].fields
             && Truthy(media["edge_media_to_caption"].fields["edges"])
             && !media["edge_media_to_caption"].fields["edges"].JArr?)
            ==> r.None?
    // a non-empty list of edges: the first edge's `node.text`, whatever its type
    ensures ("edge_media_to_caption" in media && media["edge_media_to_caption"].JObj?
             && "edges" in media["edge_media_to_caption"].fields
             && media["edge_media_to_caption"].fields["edges"].JArr?
             && media["edge_media_to_caption"].fields["edges"].items != [])
            ==> var first := media["edge_media_to_caption"].fields["edges"].items[0];
                r == if first.JObj? && "node" in first.fields && first.fields["node"].JObj?
                        && "text" in first.fields["node"].fields
                     then Some(first.fields["node"].fields["text"]) else None
  {
    if "edge_media_to_caption" !in media then Some(JStr(""))
    else
      var holder := media["edge_media_to_caption"];
      if !(holder.JObj? && "edges" in holder.fields) then None
      else
        var edges := holder.fields["edges"];
        if !Truthy(edges) then Some(JStr(""))
        else if !edges.JArr? then None
        else
          var first := edges.items[0];
          if first.JObj? && "node" in first.fields && first.fields["node"].JObj?
             && "text" in first.fields["node"].fields
          then Some(first.fields["node"].fields["text"])
          else None
  }

  /** Strategy 1: the JSON endpoint, legacy `graphql.shortcode_media` shape only. */
  function Strategy1(reply: Fetch<Json>): (r: Option<Resolution>)
    ensures r.Some? ==> reply.Response? && reply.status == 200 && reply.body.Some?
    ensures r.Some? ==> LegacyMediaOf(reply.body.value).Some?
                        && Truthy(Get(LegacyMediaOf(reply.body.value).value, "is_video"))
                        && r.value.videoUrl == Get(LegacyMediaOf(reply.body.value).value, "video_url")
    // a legacy-shape body: a result exactly for a video whose caption read does not raise
    ensures reply.Response? && reply.status == 200 && reply.body.Some? && LegacyMediaOf(reply.body.value).Some? ==>
      (r.Some? <==> Truthy(Get(LegacyMediaOf(reply.body.value).value, "is_video"))
                    && CaptionOf(LegacyMediaOf(reply.body.value).value).Some?)
    ensures r.Some? ==> Some(r.value.caption) == CaptionOf(LegacyMediaOf(reply.body.value).value)
  {
    if reply.Response? && reply.status == 200 && reply.body.Some? then
      match LegacyMediaOf(reply.body.value)
      case Some(media) =>
        if !Truthy(Get(media, "is_video")) then None
        else
          (match CaptionOf(media)
           case Some(caption) => Some(Resolution(Get(media, "video_url"), caption))
           case None => None)
      case None => None
    else None
  }

  // ---------------------------------------------------------------- strategy 2

  /** `src="([^"]+\.mp4[^"]*)"` anchored at the start of `t`. */
  function SrcMp4Here(t: string): (c: Option<string>)
    ensures c.Some? ==> c.value != [] && '"' !in c.value && Contains(c.value[1..], ".mp4")
    ensures c.Some? ==> StartsWith(t, "src=\"" + c.value + "\"")
  {
    if !StartsWith(t, "src=\"") then None
    else
      var n := RunWithout(t[5..], {'"'});
      var run := t[5..5 + n];
      // the group is the whole quote-free run: it must be followed by `"`
      // and hold `.mp4` after at least one character
      if 5 + n < |t| && run != [] && Contains(run[1..], ".mp4") then
        assert forall c :: c in run ==> c != '"' by {
          assert forall k :: 0 <= k < n ==> run[k] == t[5..][k];
        }
        assert t[..5 + n + 1] == "src=\"" + run + "\"" by {
          assert t[5 + n] == t[5..][n];
        }
        Some(run)
      else None
  }

  /** `video_url":"([^"]+)"` anchored at the start of `t`. */
  function VideoUrlHere(t: string): (c: Option<string>)
    ensures c.Some? ==> c.value != [] && '"' !in c.value
    ensures c.Some? ==> StartsWith(t, "video_url\":\"" + c.value + "\"")
  {
    if !StartsWith(t, "video_url\":\"") then None
    else
      var n := RunWithout(t[12..], {'"'});
      var run := t[12..12 + n];
      if n > 0 && 12 + n < |t| then
        assert forall c :: c in run ==> c != '"' by {
          assert forall k :: 0 <= k < n ==> run[k] == t[12..][k];
        }
        assert t[..12 + n + 1] == "video_url\":\"" + run + "\"" by {
          assert t[12 + n] == t[12..][n];
        }
        Some(run)
      else None
  }

  /** `src="c"` is matched, with group `c`, whenever `c` is a quote-free run holding `.mp4` after its first character. */
  lemma SrcMp4At(c: string, rest: string)
    requires c != [] && '"' !in c && Contains(c[1..], ".mp4")
    ensures SrcMp4Here("src=\"" + c + "\"" + rest) == Some(c)
  {
    var t := "src=\"" + c + "\"" + rest;
    assert t[..5] == "src=\"";
    assert t[5..] == c + ("\"" + rest);
    RunWithoutStopsAt(c, "\"" + rest, {'"'});
    assert t[5..5 + |c|] == c;
  }

  /** `video_url":"c"` is matched, with group `c`, whenever `c` is a non-empty quote-free run. */
  lemma VideoUrlAt(c: string, rest: string)
    requires c != [] && '"' !in c
    ensures VideoUrlHere("video_url\":\"" + c + "\"" + rest) == Some(c)
  {
    var t := "video_url\":\"" + c + "\"" + rest;
    assert t[..12] == "video_url\":\"";
    assert t[12..] == c + ("\"" + rest);
    RunWithoutStopsAt(c, "\"" + rest, {'"'});
    assert t[12..12 + |c|] == c;
  }

  /** The page's patterns in order: the first one that matches anywhere wins. */
  function EmbedMatch(html: string): (m: Option<string>)
    ensures m.Some? ==> m.value != [] && '"' !in m.value
    ensures Search(html, SrcMp4Here).Some? ==> m == Search(html, SrcMp4Here) && Contains(m.value, ".mp4")
    ensures Search(html, SrcMp4Here).None? ==> m == Search(html, VideoUrlHere)
  {
    var first := Search(html, SrcMp4Here);
    if first.Some? then first else Search(html, VideoUrlHere)
  }

  /** Python's `'\\u0026'`: the six characters of the JSON escape for `&`. */
  const AmpEscape := "\\u0026"

  /** `s.replace('\\u0026', '&')`: every occurrence, left to right, without overlap. */
  function UnescapeAmp(s: string): (r: string)
    ensures |r| <= |s|
    ensures forall c :: c in r ==> c == '&' || c in s
    ensures s != [] ==> r != [] && r[0] == if StartsWith(s, AmpEscape) then '&' else s[0]
    decreases |s|
  {
    if s == [] then []
    else if StartsWith(s, AmpEscape) then "&" + UnescapeAmp(s[6..])
    else [s[0]] + UnescapeAmp(s[1..])
  }

  /** A prefix of the result that holds no `&` was already a prefix of the input. */
  lemma {:induction false} UnescapeAmpPrefixBack(s: string, w: string)
    requires '&' !in w
    requires StartsWith(UnescapeAmp(s), w)
    ensures StartsWith(s, w)
    decreases |s|
  {
    if w != [] && s != [] && !StartsWith(s, AmpEscape) {
      var r := UnescapeAmp(s);
      assert r[1..] == UnescapeAmp(s[1..]);
      assert r[1..][..|w| - 1] == w[1..];
      UnescapeAmpPrefixBack(s[1..], w[1..]);
      assert s[..|w|] == [s[0]] + s[1..][..|w| - 1];
    }
  }

  /** A prefix of the input that holds no backslash survives into the result. */
  lemma {:induction false} UnescapeAmpPrefixKept(s: string, w: string)
    requires '\\' !in w
    requires StartsWith(s, w)
    ensures StartsWith(UnescapeAmp(s), w)
    decreases |s|
  {
    if w != [] {
      assert s[0] == w[0];
      assert !StartsWith(s, AmpEscape);
      assert s[1..][..|w| - 1] == w[1..];
      UnescapeAmpPrefixKept(s[1..], w[1..]);
      var r := UnescapeAmp(s);
      assert r == [s[0]] + UnescapeAmp(s[1..]);
    }
  }

  /** The replacement is complete: no `\u0026` is left in the result. */
  lemma {:induction false} UnescapeAmpComplete(s: string)
    ensures !Contains(UnescapeAmp(s), AmpEscape)
    decreases |s|
  {
    var r := UnescapeAmp(s);
    if s != [] {
      var tail := if StartsWith(s, AmpEscape) then s[6..] else s[1..];
      assert r[1..] == UnescapeAmp(tail);
      UnescapeAmpComplete(tail);
      if StartsWith(r, AmpEscape) {
        UnescapeAmpPrefixBack(s, AmpEscape);
      }
    }
  }

  /** Nothing but `\u0026` is decoded: text without it, `\/` escapes included, comes back unchanged. */
  lemma {:induction false} UnescapeAmpIdentity(s: string)
    requires !Contains(s, AmpEscape)
    ensures UnescapeAmp(s) == s
    decreases |s|
  {
    if s != [] {
      UnescapeAmpIdentity(s[1..]);
    }
  }

  /** A `.mp4` in the matched text is still there after the replacement. */
  lemma {:induction false} UnescapeAmpKeepsMp4(s: string)
    requires Contains(s, ".mp4")
    ensures Contains(UnescapeAmp(s), ".mp4")
    decreases |s|
  {
    var r := UnescapeAmp(s);
    if StartsWith(s, AmpEscape) {
      forall k | 0 <= k < 6 ensures !StartsWith(s[k..], ".mp4") {
        assert s[k..][0] == s[k] == AmpEscape[k];
      }
      ContainsSkip(s, 6, ".mp4");
      UnescapeAmpKeepsMp4(s[6..]);
      assert r[1..] == UnescapeAmp(s[6..]);
    } else if StartsWith(s, ".mp4") {
      UnescapeAmpPrefixKept(s, ".mp4");
    } else {
      UnescapeAmpKeepsMp4(s[1..]);
      assert r[1..] == UnescapeAmp(s[1..]);
    }
  }

  /** Each `\u0026` becomes exactly one `&`: the text before the first escape is kept and the rest is decoded on. */
  lemma {:induction false} UnescapeAmpAfter(a: string, b: string)
    requires !Contains(a, AmpEscape)
    ensures UnescapeAmp(a + AmpEscape + b) == a + "&" + UnescapeAmp(b)
    decreases |a|
  {
    var s := a + AmpEscape + b;
    if a == [] {
      assert s == AmpEscape + b;
      assert s[..6] == AmpEscape;
      assert s[6..] == b;
    } else {
      assert !StartsWith(a, AmpEscape);
      // the escape cannot start in `a` and run on into what follows
      if |a| >= 6 {
        assert s[..6] == a[..6];
      } else {
        assert s[|a|] == '\\' != AmpEscape[|a|];
      }
      assert !StartsWith(s, AmpEscape);
      assert s[1..] == a[1..] + AmpEscape + b;
      UnescapeAmpAfter(a[1..], b);
    }
  }

  /** Strategy 2: the embed page, scanned with the patterns of `EmbedMatch`. */
  function Strategy2(reply: Fetch<string>): (r: Option<Resolution>)
    ensures r.Some? ==> reply.Response? && reply.status == 200 && reply.body.Some?
    ensures r.Some? ==> r.value.caption == JStr(EmbedCaption) && r.value.videoUrl.JStr?
    ensures reply.Response? && reply.status == 200 && reply.body.Some? ==>
      (r.Some? <==> EmbedMatch(reply.body.value).Some?)
    ensures r.Some? ==> r.value.videoUrl == JStr(UnescapeAmp(EmbedMatch(reply.body.value).value))
  {
    if reply.Response? && reply.status == 200 && reply.body.Some? then
      match EmbedMatch(reply.body.value)
      case Some(url) => Some(Resolution(JStr(UnescapeAmp(url)), JStr(EmbedCaption)))
      case None => None
    else None
  }

  // ---------------------------------------------------------------- resolver

  /** `get_video_url_async(code)` with the two endpoints answering `api` and `embed`. */
  function Resolve(code: string, api: Fetch<Json>, embed: Fetch<string>): (out: Resolved)
    ensures out.requests != [] && out.requests[0] == ApiUrl(code)
    ensures out.requests == [ApiUrl(code)] <==> Strategy1(api).Some?
    ensures Strategy1(api).None? ==> out.requests == [ApiUrl(code), EmbedUrl(code)]
    ensures Strategy1(api).Some? ==> out.result == Strategy1(api).value
    ensures Strategy1(api).None? && Strategy2(embed).Some? ==> out.result == Strategy2(embed).value
    ensures Strategy1(api).None? && Strategy2(embed).None? ==> out.result == NotFound
  {
    match Strategy1(api)
    case Some(found) => Resolved(found, [ApiUrl(code)])
    case None =>
      match Strategy2(embed)
      case Some(found) => Resolved(found, [ApiUrl(code), EmbedUrl(code)])
      case None => Resolved(NotFound, [ApiUrl(code), EmbedUrl(code)])
  }

  /**
   * Strategy 2 on a page: `None` exactly when neither pattern matches; the
   * URL it returns holds no `"` and no `\u0026`, keeps the `.mp4` of the
   * first pattern when that pattern matched, and the caption is fixed.
   */
  lemma EmbedPageResult(html: string)
    ensures var r := Strategy2(Response(200, Some(html)));
      && (r.None? <==> Search(html, SrcMp4Here).None? && Search(html, VideoUrlHere).None?)
      && (r.Some? ==> r.value.caption == JStr(EmbedCaption) && r.value.videoUrl.JStr?
                      && '"' !in r.value.videoUrl.str && !Contains(r.value.videoUrl.str, AmpEscape))
      && (Search(html, SrcMp4Here).Some? ==> r.Some? && Contains(r.value.videoUrl.str, ".mp4"))
  {
    var m := EmbedMatch(html);
    if m.Some? {
      UnescapeAmpComplete(m.value);
      if Search(html, SrcMp4Here).Some? {
        UnescapeAmpKeepsMp4(m.value);
      }
    }
  }

  /** A page holding `video_url":"c"`, with `c` a non-empty quote-free run, always gives strategy 2 a video URL. */
  lemma VideoUrlPageIsResolved(pre: string, c: string, rest: string)
    requires c != [] && '"' !in c
    ensures Strategy2(Response(200, Some(pre + "video_url\":\"" + c + "\"" + rest))).Some?
  {
    var html := pre + "video_url\":\"" + c + "\"" + rest;
    VideoUrlAt(c, rest);
    assert html[|pre|..] == "video_url\":\"" + c + "\"" + rest;
    assert VideoUrlHere(html[|pre|..]).Some?;
  }

  /** A page holding `src="c"`, with `c` quote-free and holding `.mp4` after its first character, gives a `.mp4` URL. */
  lemma SrcMp4PageIsResolved(pre: string, c: string, rest: string)
    requires c != [] && '"' !in c && Contains(c[1..], ".mp4")
    ensures var r := Strategy2(Response(200, Some(pre + "src=\"" + c + "\"" + rest)));
      r.Some? && Contains(r.value.videoUrl.str, ".mp4")
  {
    var html := pre + "src=\"" + c + "\"" + rest;
    SrcMp4At(c, rest);
    assert html[|pre|..] == "src=\"" + c + "\"" + rest;
    assert SrcMp4Here(html[|pre|..]).Some?;
    EmbedPageResult(html);
  }

  /**
   * A `video_url` match free of `\u0026` is returned exactly as it stands in
   * the page: JSON escapes such as `\/` are not decoded.
   */
  lemma OnlyAmpEscapeIsDecoded(html: string)
    requires Search(html, SrcMp4Here).None? && Search(html, VideoUrlHere).Some?
    requires !Contains(Search(html, VideoUrlHere).value, AmpEscape)
    ensures Strategy2(Response(200, Some(html)))
            == Some(Resolution(JStr(Search(html, VideoUrlHere).value), JStr(EmbedCaption)))
  {
    UnescapeAmpIdentity(Search(html, VideoUrlHere).value);
  }

  /**
   * A video post in the legacy shape ends the search at strategy 1: the
   * result is its `video_url` (JSON `null` when the key is missing) and the
   * caption strategy 1 read, whatever the embed page would have said, and
   * the embed page is never requested.
   */
  lemma VideoPostStopsAtStrategy1(code: string, data: Json, embed: Fetch<string>)
    requires LegacyMediaOf(data).Some?
    requires Truthy(Get(LegacyMediaOf(data).value, "is_video"))
    requires CaptionOf(LegacyMediaOf(data).value).Some?
    ensures var media := LegacyMediaOf(data).value;
      Resolve(code, Response(200, Some(data)), embed)
      == Resolved(Resolution(Get(media, "video_url"), CaptionOf(media).value), [ApiUrl(code)])
  {
  }

  /** No reply, a status other than 200 or an undecodable body on strategy 1 hands the decision to strategy 2. */
  lemma ApiFailureFallsThrough(code: string, api: Fetch<Json>, embed: Fetch<string>)
    requires api.NoResponse? || api.status != 200 || api.body.None?
    ensures Resolve(code, api, embed).requests == [ApiUrl(code), EmbedUrl(code)]
    ensures Resolve(code, api, embed).result
            == if Strategy2(embed).Some? then Strategy2(embed).value else NotFound
  {
  }
}

=== FILE: scan.dfy ===
/**
 * Unanchored regular-expression search (`re.search`): a matcher anchored at
 * the start of a string is tried at every start position from left to right,
 * and the first position where it matches decides the match.
 */
module Scan {
  import opened Wrappers

  /** A matcher anchored at the start of its argument, returning the capture of group 1. */
  type Matcher = string -> Option<string>

  /** The leftmost start position at which `here` matches, if any. */
  function FindFirst(t: string, here: Matcher): (r: Option<nat>)
    ensures r.Some? ==> r.value <= |t| && here(t[r.value..]).Some?
    ensures r.Some? ==> forall k :: 0 <= k < r.value ==> here(t[k..]).None?
    ensures r.None? ==> forall k :: 0 <= k <= |t| ==> here(t[k..]).None?
    decreases |t|
  {
    if here(t).Some? then Some(0)
    else if t == [] then None
    else
      var rest := FindFirst(t[1..], here);
      assert forall k :: 1 <= k <= |t| ==> t[1..][k - 1..] == t[k..];
      if rest.Some? then Some(rest.value + 1) else None
  }

  /** `re.search(pattern, t)` followed by `.group(1)`. */
  function Search(t: string, here: Matcher): (r: Option<string>)
    ensures r.None? <==> forall k :: 0 <= k <= |t| ==> here(t[k..]).None?
    ensures r.Some? ==> exists j :: 0 <= j <= |t| && here(t[j..]) == r
                                    && forall k :: 0 <= k < j ==> here(t[k..]).None?
  {
    match FindFirst(t, here)
    case Some(j) => here(t[j..])
    case None => None
  }

  /** The leftmost match position is determined by the two facts that define it. */
  lemma FindFirstIs(t: string, here: Matcher, j: nat)
    requires j <= |t| && here(t[j..]).Some?
    requires forall k :: 0 <= k < j ==> here(t[k..]).None?
    ensures FindFirst(t, here) == Some(j)
  {
  }

  /** A search that finds nothing at the first `n` positions gives the same answer as a search of what follows them. */
  lemma SearchSkip(t: string, n: nat, here: Matcher)
    requires n <= |t|
    requires forall k :: 0 <= k < n ==> here(t[k..]).None?
    ensures Search(t, here) == Search(t[n..], here)
  {
    match FindFirst(t[n..], here)
    case Some(j) =>
      assert t[n..][j..] == t[n + j..];
      forall k | n <= k < n + j ensures here(t[k..]).None? {
        assert t[n..][k - n..] == t[k..];
      }
      FindFirstIs(t, here, n + j);
    case None =>
      forall k | n <= k <= |t| ensures here(t[k..]).None? {
        assert t[n..][k - n..] == t[k..];
      }
  }

  /** A search succeeds exactly when the matcher succeeds at some position. */
  lemma SearchNoneIff(t: string, here: Matcher)
    ensures Search(t, here).None? <==> forall k :: 0 <= k <= |t| ==> here(t[k..]).None?
  {
  }

  /** A search that finds nothing inside `pre` gives the same answer as a search of `v` alone. */
  lemma SearchAfterPrefix(pre: string, v: string, here: Matcher)
    requires forall k :: 0 <= k < |pre| ==> here((pre + v)[k..]).None?
    ensures Search(pre + v, here) == Search(v, here)
  {
    SearchSkip(pre + v, |pre|, here);
    assert (pre + v)[|pre|..] == v;
  }
}

=== FILE: shortcode.dfy ===
/**
 * `extract_shortcode`: two regular expressions, both searched unanchored and
 * with `re.IGNORECASE`, tried in order; the first that matches gives its
 * group 1, and the result is `None` when neither matches.
 *
 *   rule 1: (?:https?://)?(?:www\.)?instagram\.com/(?:p|reel|tv)/([A-Za-z0-9_-]{11})
 *   rule 2: instagram\.com/(?:p|reel|tv)/([^/?]+)
 *
 * Case is folded for ASCII letters only.
 */
module Shortcode {
  import opened Wrappers
  import opened Strings
  import opened Scan

  /** A member of the class `[A-Za-z0-9_-]`. */
  predicate IsTokenChar(c: char)
  {
    'a' <= c <= 'z' || 'A' <= c <= 'Z' || '0' <= c <= '9' || c == '_' || c == '-'
  }

  predicate AllToken(s: string)
  {
    forall k :: 0 <= k < |s| ==> IsTokenChar(s[k])
  }

  /** No character of `s` is `/` or `?`: what `[^/?]` admits. */
  predicate NoSlashOrQuery(s: string)
  {
    forall k :: 0 <= k < |s| ==> s[k] != '/' && s[k] != '?'
  }

  /** Length of `instagram\.com/(?:p|reel|tv)/` matched at the start of `t`, if it matches. */
  function MarkerLen(t: string): (m: Option<nat>)
    ensures m.Some? ==> m.value <= |t| && StartsWithCI(t, "instagram.com/")
  {
    if !StartsWithCI(t, "instagram.com/") then None
    else if StartsWithCI(t[14..], "p/") then Some(16)
    else if StartsWithCI(t[14..], "reel/") then Some(19)
    else if StartsWithCI(t[14..], "tv/") then Some(17)
    else None
  }

  /** Every match of a marker begins with an `i`, which no scheme or `www.` character is. */
  lemma MarkerStartsWithI(t: string)
    requires MarkerLen(t).Some?
    ensures t != [] && Fold(t[0]) == 'i'
  {
  }

  /** Rule 1 without its optional prefix: the marker, then exactly 11 token characters. */
  function Rule1Core(t: string): (c: Option<string>)
    ensures c.Some? ==> MarkerLen(t).Some? && |c.value| == 11 && AllToken(c.value)
  {
    match MarkerLen(t)
    case None => None
    case Some(m) => if m + 11 <= |t| && AllToken(t[m..m + 11]) then Some(t[m..m + 11]) else None
  }

  /** Rule 1's optional prefix can be `p` at the start of `t` and the core then matches. */
  predicate PrefixFits(t: string, p: string)
  {
    StartsWithCI(t, p) && Rule1Core(t[|p|..]).Some?
  }

  /**
   * The length of the text `(?:https?://)?(?:www\.)?` consumes when rule 1
   * matches at the start of `t`, trying the choices in the order the engine
   * backtracks through them (both groups greedy, `s?` greedy).
   */
  function PrefixTaken(t: string): (n: Option<nat>)
    ensures n.Some? ==> n.value <= |t| && Rule1Core(t[n.value..]).Some?
  {
    if PrefixFits(t, "https://www.") then Some(12)
    else if PrefixFits(t, "https://") then Some(8)
    else if PrefixFits(t, "http://www.") then Some(11)
    else if PrefixFits(t, "http://") then Some(7)
    else if PrefixFits(t, "www.") then Some(4)
    else if PrefixFits(t, "") then Some(0)
    else None
  }

  /** A text starting with a literal free of `i` holds no `i` or `I` in that stretch. */
  lemma LiteralHasNoI(t: string, p: string)
    requires StartsWithCI(t, p) && 'i' !in p
    ensures forall k :: 0 <= k < |p| ==> Fold(t[k]) != 'i'
  {
    forall k | 0 <= k < |p| ensures Fold(t[k]) != 'i' {
      assert p[k] in p;
    }
  }

  /** The prefix consumed never holds an `i`, so it never hides the start of a marker. */
  lemma PrefixHasNoI(t: string)
    requires PrefixTaken(t).Some?
    ensures forall k :: 0 <= k < PrefixTaken(t).value ==> Fold(t[k]) != 'i'
  {
    if PrefixFits(t, "https://www.") {
      LiteralHasNoI(t, "https://www.");
    } else if PrefixFits(t, "https://") {
      LiteralHasNoI(t, "https://");
    } else if PrefixFits(t, "http://www.") {
      LiteralHasNoI(t, "http://www.");
    } else if PrefixFits(t, "http://") {
      LiteralHasNoI(t, "http://");
    } else if PrefixFits(t, "www.") {
      LiteralHasNoI(t, "www.");
    }
  }

  /** The same, for a rule 1 match found at position `l` of a longer text. */
  lemma PrefixSpanHasNoI(t: string, l: nat)
    requires l <= |t| && PrefixTaken(t[l..]).Some?
    ensures forall k :: l <= k < l + PrefixTaken(t[l..]).value ==> Fold(t[k]) != 'i'
  {
    PrefixHasNoI(t[l..]);
    forall k | l <= k < l + PrefixTaken(t[l..]).value ensures Fold(t[k]) != 'i' {
      assert t[k] == t[l..][k - l];
    }
  }

  /** A text whose first character folds to something else does not start with the literal. */
  lemma FirstCharBlocks(t: string, p: string)
    requires t != [] && p != [] && Fold(t[0]) != p[0]
    ensures !StartsWithCI(t, p)
  {
  }

  /** Rule 1 anchored at the start of `t`, optional prefix included. */
  function Rule1Here(t: string): (c: Option<string>)
    ensures c.Some? ==> |c.value| == 11 && AllToken(c.value)
  {
    match PrefixTaken(t)
    case Some(n) => Rule1Core(t[n..])
    case None => None
  }

  /** The characters that end rule 2's `[^/?]+`. */
  const PathStops: set<char> := {'/', '?'}

  /** The run rule 2 captures holds no `/` and no `?`. */
  lemma PathRunClean(s: string)
    ensures NoSlashOrQuery(s[..RunWithout(s, PathStops)])
  {
    var n := RunWithout(s, PathStops);
    forall k | 0 <= k < n ensures s[..n][k] != '/' && s[..n][k] != '?' {
      assert s[k] !in PathStops;
    }
  }

  /** Rule 2 anchored at the start of `t`: the marker, then the longest non-empty run without `/` or `?`. */
  function Rule2Here(t: string): (c: Option<string>)
    ensures c.Some? ==> MarkerLen(t).Some? && |c.value| > 0 && NoSlashOrQuery(c.value)
  {
    match MarkerLen(t)
    case None => None
    case Some(m) =>
      var n := RunWithout(t[m..], PathStops);
      if n > 0 then
        PathRunClean(t[m..]);
        Some(t[m..][..n])
      else None
  }

  /** `extract_shortcode(url)`. */
  function Extract(url: string): (r: Option<string>)
    ensures r.Some? ==> |r.value| > 0 && NoSlashOrQuery(r.value)
    ensures Search(url, Rule1Here).Some? ==> r == Search(url, Rule1Here) && |r.value| == 11 && AllToken(r.value)
    ensures Search(url, Rule1Here).None? ==> r == Search(url, Rule2Here)
  {
    match Search(url, Rule1Here)
    case Some(code) => Some(code)
    case None => Search(url, Rule2Here)
  }

  /** At a position where the bare marker-and-token core matches, rule 1 matches with an empty prefix and captures the same text. */
  lemma Rule1HereAtCore(t: string)
    requires Rule1Core(t).Some?
    ensures Rule1Here(t) == Rule1Core(t)
  {
    MarkerStartsWithI(t);
    FirstCharBlocks(t, "https://www.");
    FirstCharBlocks(t, "https://");
    FirstCharBlocks(t, "http://www.");
    FirstCharBlocks(t, "http://");
    FirstCharBlocks(t, "www.");
    assert t[0..] == t;
    assert PrefixTaken(t) == Some(0);
  }

  /**
   * The optional `(?:https?://)?(?:www\.)?` of rule 1 never changes its
   * capture: the leftmost match of the whole pattern captures what the
   * leftmost match of its core captures.
   */
  lemma PrefixNeverChangesCapture(t: string)
    ensures Search(t, Rule1Here) == Search(t, Rule1Core)
  {
    match FindFirst(t, Rule1Core)
    case Some(j) =>
      LeftmostMatchesAgree(t, j);
    case None =>
      forall k | 0 <= k <= |t| ensures Rule1Here(t[k..]).None? {
        if Rule1Here(t[k..]).Some? {
          Rule1HereNeedsCore(t, k);
          assert false;
        }
      }
  }

  /** A rule 1 match at position `k` is a match of its core right after the prefix it took. */
  lemma Rule1HereNeedsCore(t: string, k: nat)
    requires k <= |t| && Rule1Here(t[k..]).Some?
    ensures PrefixTaken(t[k..]).Some? && k + PrefixTaken(t[k..]).value <= |t|
    ensures Rule1Here(t[k..]) == Rule1Core(t[k + PrefixTaken(t[k..]).value..])
  {
    assert t[k..][PrefixTaken(t[k..]).value..] == t[k + PrefixTaken(t[k..]).value..];
  }

  /** When the core first matches at `j`, the whole of rule 1 first matches where its prefix ends at `j`. */
  lemma LeftmostMatchesAgree(t: string, j: nat)
    requires FindFirst(t, Rule1Core) == Some(j)
    ensures Search(t, Rule1Here) == Rule1Core(t[j..])
  {
    Rule1HereAtCore(t[j..]);
    var l := FindFirst(t, Rule1Here).value;
    Rule1HereNeedsCore(t, l);
    var n := PrefixTaken(t[l..]).value;
    PrefixSpanHasNoI(t, l);
    assert l + n == j by {
      if l + n > j {
        MarkerStartsWithI(t[j..]);
        assert false;
      }
    }
  }

  lemma Rule1CoreImpliesRule2(t: string)
    requires Rule1Core(t).Some?
    ensures Rule2Here(t).Some?
  {
    var m := MarkerLen(t).value;
    assert t[m..][0] == t[m];
  }

  /** `extract_shortcode` returns `None` exactly when no position of the input starts a match of rule 2. */
  lemma {:induction false} ExtractNoneIff(url: string)
    ensures Extract(url).None? <==> forall j :: 0 <= j <= |url| ==> Rule2Here(url[j..]).None?
  {
    SearchNoneIff(url, Rule2Here);
    if Search(url, Rule1Here).Some? {
      PrefixNeverChangesCapture(url);
      var j := FindFirst(url, Rule1Core).value;
      Rule1CoreImpliesRule2(url[j..]);
    }
  }

  /** Without `instagram.com` in any letter case there is no shortcode. */
  lemma ExtractNeedsHost(url: string)
    requires !ContainsCI(url, "instagram.com")
    ensures Extract(url) == None
  {
    forall j | 0 <= j <= |url| ensures Rule2Here(url[j..]).None? {
      if Rule2Here(url[j..]).Some? {
        assert StartsWithCI(url[j..], "instagram.com");
        ContainsCIAt(url, j, "instagram.com");
        assert false;
      }
    }
    ExtractNoneIff(url);
  }

  /** No match of the marker begins at any of the first `n` positions of `s`. */
  predicate NoMarkerIn(s: string, n: nat)
    requires n <= |s|
  {
    forall k :: 0 <= k < n ==> MarkerLen(s[k..]).None?
  }

  /** The matcher can only match where the marker does. */
  ghost predicate Anchored(here: Matcher)
  {
    forall t :: here(t).Some? ==> MarkerLen(t).Some?
  }

  /** `host` and `kind` spell `instagram.com` and one of `p`, `reel`, `tv`, in any ASCII case. */
  predicate MarkerParts(host: string, kind: string)
  {
    FoldsTo(host, "instagram.com") && (FoldsTo(kind, "p") || FoldsTo(kind, "reel") || FoldsTo(kind, "tv"))
  }

  /**
   * Conversely, every marker is an any-case host, `/`, a kind among `p`,
   * `reel` and `tv` in any case, and `/`: a path such as `stories/` or a
   * profile name is never a marker.
   */
  lemma MarkerHasParts(t: string)
    requires MarkerLen(t).Some?
    ensures var m := MarkerLen(t).value;
      15 < m && t[13] == '/' && t[m - 1] == '/' && MarkerParts(t[..13], t[14..m - 1])
  {
    var m := MarkerLen(t).value;
    forall k | 0 <= k < 13 ensures Fold(t[..13][k]) == "instagram.com"[k] {
      assert Fold(t[k]) == "instagram.com/"[k];
    }
    var kind := t[14..m - 1];
    assert forall k :: 0 <= k < |kind| ==> kind[k] == t[14..][k];
    if m == 16 {
      assert FoldsTo(kind, "p");
    } else if m == 19 {
      assert FoldsTo(kind, "reel");
    } else {
      assert FoldsTo(kind, "tv");
    }
  }

  lemma MarkerAtParts(host: string, kind: string, rest: string)
    requires MarkerParts(host, kind)
    ensures MarkerLen(host + "/" + kind + "/" + rest) == Some(|host| + |kind| + 2)
  {
    var u := host + "/" + kind + "/" + rest;
    var w := kind + "/" + rest;
    assert FoldsTo("/", "/");
    FoldsToConcat(host, "instagram.com", "/", "/");
    assert "instagram.com" + "/" == "instagram.com/";
    assert u == (host + "/") + w;
    FoldsToStarts(host + "/", "instagram.com/", w);
    assert u[14..] == w;
    assert w == (kind + "/") + rest;
    if FoldsTo(kind, "p") {
      FoldsToConcat(kind, "p", "/", "/");
      FoldsToStarts(kind + "/", "p/", rest);
    } else if FoldsTo(kind, "reel") {
      assert w[0] == kind[0];
      FoldsToConcat(kind, "reel", "/", "/");
      FoldsToStarts(kind + "/", "reel/", rest);
    } else {
      assert w[0] == kind[0];
      FoldsToConcat(kind, "tv", "/", "/");
      FoldsToStarts(kind + "/", "tv/", rest);
    }
  }

  /** Past a marker, rule 1's core depends on the text after the marker only. */
  lemma Rule1CoreAfterMarker(host: string, kind: string, rest: string)
    requires MarkerParts(host, kind)
    ensures Rule1Core(host + "/" + kind + "/" + rest)
            == if |rest| >= 11 && AllToken(rest[..11]) then Some(rest[..11]) else None
  {
    var u := host + "/" + kind + "/" + rest;
    var m := |host| + |kind| + 2;
    MarkerAtParts(host, kind, rest);
    assert u[m..] == rest;
    if |rest| >= 11 {
      assert u[m..m + 11] == rest[..11];
    }
  }

  /** Past a marker, rule 2 depends on the text after the marker only. */
  lemma Rule2AfterMarker(host: string, kind: string, rest: string)
    requires MarkerParts(host, kind)
    ensures var n := RunWithout(rest, PathStops);
      Rule2Here(host + "/" + kind + "/" + rest) == if n > 0 then Some(rest[..n]) else None
  {
    var u := host + "/" + kind + "/" + rest;
    var m := |host| + |kind| + 2;
    MarkerAtParts(host, kind, rest);
    assert u[m..] == rest;
    var n := RunWithout(rest, PathStops);
  }

  /** A search that passes no marker before `m` settles at `m` or continues after it. */
  lemma SearchPastLeadingMarker(pre: string, m: string, rest: string, here: Matcher)
    requires Anchored(here)
    requires NoMarkerIn(pre + m + rest, |pre|)
    requires m != [] && forall k :: 1 <= k < |m| ==> Fold(m[k]) != 'i'
    ensures Search(pre + m + rest, here) == if here(m + rest).Some? then here(m + rest) else Search(rest, here)
  {
    var u := pre + m + rest;
    var v := m + rest;
    forall k | 0 <= k < |pre| ensures here(u[k..]).None? {
      assert MarkerLen(u[k..]).None?;
    }
    assert u == pre + v;
    SearchAfterPrefix(pre, v, here);
    if here(v).Some? {
      assert v[0..] == v;
      FindFirstIs(v, here, 0);
    } else {
      MarkerFreeTail(m, rest, here);
      SearchAfterPrefix(m, rest, here);
    }
  }

  lemma MarkerFreeTail(m: string, rest: string, here: Matcher)
    requires Anchored(here)
    requires m != [] && forall k :: 1 <= k < |m| ==> Fold(m[k]) != 'i'
    requires here(m + rest).None?
    ensures forall k :: 0 <= k < |m| ==> here((m + rest)[k..]).None?
  {
    var v := m + rest;
    forall k | 0 <= k < |m| ensures here(v[k..]).None? {
      if k == 0 {
        assert v[k..] == v;
      } else if MarkerLen(v[k..]).Some? {
        assert v[k..][0] == m[k];
        MarkerStartsWithI(v[k..]);
      }
    }
  }

  lemma MarkerTailHasNoI(host: string, kind: string)
    requires MarkerParts(host, kind)
    ensures var m := host + "/" + kind + "/"; m != [] && forall k :: 1 <= k < |m| ==> Fold(m[k]) != 'i'
  {
    var m := host + "/" + kind + "/";
    forall k | 1 <= k < |m| ensures Fold(m[k]) != 'i' {
      if k < |host| {
        assert m[k] == host[k];
      } else if |host| < k < |host| + 1 + |kind| {
        assert m[k] == kind[k - |host| - 1];
      }
    }
  }

  /**
   * What the extractor gives once it has reached a marker with `rest` after
   * it: rule 1 at the marker, else rule 1 further on, else rule 2 at the
   * marker, else rule 2 further on.
   */
  function AfterFirstMarker(rest: string): Option<string>
  {
    var first := if |rest| >= 11 && AllToken(rest[..11]) then Some(rest[..11]) else Search(rest, Rule1Core);
    if first.Some? then first
    else
      var n := RunWithout(rest, PathStops);
      if n > 0 then Some(rest[..n]) else Search(rest, Rule2Here)
  }

  lemma ExtractAfterLeadingMarker(pre: string, host: string, kind: string, rest: string)
    requires MarkerParts(host, kind)
    requires NoMarkerIn(pre + host + "/" + kind + "/" + rest, |pre|)
    ensures Extract(pre + host + "/" + kind + "/" + rest) == AfterFirstMarker(rest)
    ensures Search(pre + host + "/" + kind + "/" + rest, Rule1Here).None?
            <==> !(|rest| >= 11 && AllToken(rest[..11])) && Search(rest, Rule1Core).None?
  {
    var url := pre + host + "/" + kind + "/" + rest;
    var m := host + "/" + kind + "/";
    assert url == pre + m + rest;
    assert m + rest == host + "/" + kind + "/" + rest;
    assert Anchored(Rule1Core) && Anchored(Rule2Here);
    MarkerTailHasNoI(host, kind);
    Rule1CoreAfterMarker(host, kind, rest);
    Rule2AfterMarker(host, kind, rest);
    PrefixNeverChangesCapture(url);
    SearchPastLeadingMarker(pre, m, rest, Rule1Core);
    SearchPastLeadingMarker(pre, m, rest, Rule2Here);
  }

  /** The lower-case `instagram.com/p/` form: its shortcode is decided by what follows the marker. */
  lemma CanonicalMarker(rest: string)
    ensures Extract("instagram.com/p/" + rest) == AfterFirstMarker(rest)
  {
    var c := "instagram.com/p/" + rest;
    assert MarkerParts("instagram.com", "p");
    assert c == [] + "instagram.com" + "/" + "p" + "/" + rest;
    assert NoMarkerIn(c, 0);
    ExtractAfterLeadingMarker([], "instagram.com", "p", rest);
  }

  /**
   * A URL whose first marker is `host/kind/`: the shortcode is the first 11
   * characters after it when they are all token characters, even if the
   * token runs on; when rule 1 fails everywhere, it is the longest run
   * without `/` or `?` after the marker; and in every case it is what the
   * lower-case `instagram.com/p/` form gives, so neither the text before the
   * marker (a scheme, `www.`) nor the letter case of host and post kind
   * matters.
   */
  lemma {:induction false} ShortcodeAfterLeadingMarker(pre: string, host: string, kind: string, rest: string)
    requires MarkerParts(host, kind)
    requires NoMarkerIn(pre + host + "/" + kind + "/" + rest, |pre|)
    ensures var url := pre + host + "/" + kind + "/" + rest;
      Extract(url) == Extract("instagram.com/p/" + rest)
    ensures var url := pre + host + "/" + kind + "/" + rest;
      |rest| >= 11 && AllToken(rest[..11]) ==> Extract(url) == Some(rest[..11])
    ensures var url := pre + host + "/" + kind + "/" + rest;
      Search(url, Rule1Here).None? && rest != [] && rest[0] != '/' && rest[0] != '?' ==>
        Extract(url) == Some(rest[..RunWithout(rest, PathStops)])
  {
    ExtractAfterLeadingMarker(pre, host, kind, rest);
    CanonicalMarker(rest);
    var n := RunWithout(rest, PathStops);
    assert rest != [] && rest[0] != '/' && rest[0] != '?' ==> n > 0;
  }

  /** Text without any `i` or `I` cannot hold the start of a marker. */
  lemma NoIMeansNoMarker(pre: string, x: string)
    requires forall k :: 0 <= k < |pre| ==> Fold(pre[k]) != 'i'
    ensures NoMarkerIn(pre + x, |pre|)
  {
    forall k | 0 <= k < |pre| ensures MarkerLen((pre + x)[k..]).None? {
      if MarkerLen((pre + x)[k..]).Some? {
        assert (pre + x)[k..][0] == pre[k];
        MarkerStartsWithI((pre + x)[k..]);
      }
    }
  }

  lemma SchemeHasNoI(scheme: string)
    requires scheme in ["https://www.", "https://", "http://www.", "http://", "www.", ""]
    ensures forall k :: 0 <= k < |scheme| ==> Fold(scheme[k]) != 'i'
  {
    forall k | 0 <= k < |scheme| ensures Fold(scheme[k]) != 'i' {
      assert scheme[k] in "htps:/w.";
    }
  }

  /** Writing the link with or without `https://`, `http://` and `www.` gives the same shortcode. */
  lemma SchemeAndWwwNeverMatter(scheme: string, host: string, kind: string, rest: string)
    requires scheme in ["https://www.", "https://", "http://www.", "http://", "www.", ""]
    requires MarkerParts(host, kind)
    ensures Extract(scheme + host + "/" + kind + "/" + rest) == Extract("instagram.com/p/" + rest)
  {
    SchemeHasNoI(scheme);
    NoIMeansNoMarker(scheme, host + "/" + kind + "/" + rest);
    assert scheme + host + "/" + kind + "/" + rest == scheme + (host + "/" + kind + "/" + rest);
    ShortcodeAfterLeadingMarker(scheme, host, kind, rest);
  }
}

=== FILE: strings.dfy ===
/** Character and substring helpers shared by the extractor, the host check and the page scraper. */
module Strings {

  /** ASCII lower-casing: the case folding `re.IGNORECASE` applies to the ASCII letters of a pattern. */
  function Fold(c: char): char
  {
    if 'A' <= c <= 'Z' then (c as int + 32) as char else c
  }

  /** `s` begins with the literal `lit` (case-sensitive). */
  predicate StartsWith(s: string, lit: string)
  {
    |lit| <= |s| && s[..|lit|] == lit
  }

  /** `s` begins with the lower-case literal `lit`, ignoring ASCII case. */
  predicate StartsWithCI(s: string, lit: string)
  {
    |lit| <= |s| && forall k :: 0 <= k < |lit| ==> Fold(s[k]) == lit[k]
  }

  /** `s` is the lower-case literal `lit` up to ASCII case. */
  predicate FoldsTo(s: string, lit: string)
  {
    |s| == |lit| && forall k :: 0 <= k < |s| ==> Fold(s[k]) == lit[k]
  }

  /** Python's `lit in s`: a case-sensitive substring test. */
  predicate Contains(s: string, lit: string)
    ensures Contains(s, lit) <==> exists j :: 0 <= j <= |s| && StartsWith(s[j..], lit)
    decreases |s|
  {
    assert s[0..] == s;
    assert forall j :: 1 <= j <= |s| ==> s[1..][j - 1..] == s[j..];
    StartsWith(s, lit) || (s != [] && Contains(s[1..], lit))
  }

  /** A substring test that ignores ASCII case. */
  predicate ContainsCI(s: string, lit: string)
    decreases |s|
  {
    StartsWithCI(s, lit) || (s != [] && ContainsCI(s[1..], lit))
  }

  lemma {:induction false} ContainsAt(s: string, j: nat, lit: string)
    requires j <= |s| && StartsWith(s[j..], lit)
    ensures Contains(s, lit)
    decreases j
  {
    if j > 0 {
      assert s[1..][j - 1..] == s[j..];
      ContainsAt(s[1..], j - 1, lit);
    }
  }

  lemma {:induction false} ContainsCIAt(s: string, j: nat, lit: string)
    requires j <= |s| && StartsWithCI(s[j..], lit)
    ensures ContainsCI(s, lit)
    decreases j
  {
    if j > 0 {
      assert s[1..][j - 1..] == s[j..];
      ContainsCIAt(s[1..], j - 1, lit);
    }
  }

  /** Length of the longest prefix of `s` free of the characters in `stops`: the greedy `[^...]*` of a regular expression. */
  function RunWithout(s: string, stops: set<char>): (n: nat)
    ensures n <= |s|
    ensures forall k :: 0 <= k < n ==> s[k] !in stops
    ensures n < |s| ==> s[n] in stops
    decreases |s|
  {
    if s == [] || s[0] in stops then 0 else 1 + RunWithout(s[1..], stops)
  }

  /**
   * A quote-free (stop-free) run followed by a stop character is exactly
   * what the greedy run takes.
   */
  lemma {:induction false} RunWithoutStopsAt(c: string, tail: string, stops: set<char>)
    requires forall k :: 0 <= k < |c| ==> c[k] !in stops
    requires tail != [] && tail[0] in stops
    ensures RunWithout(c + tail, stops) == |c|
    decreases |c|
  {
    if c != [] {
      assert (c + tail)[1..] == c[1..] + tail;
      RunWithoutStopsAt(c[1..], tail, stops);
    } else {
      assert c + tail == tail;
    }
  }

  /**
   * The 29 characters Python's `str.isspace()` accepts: the ASCII controls
   * tab to carriage return and the four separators, the space, NEL, the
   * no-break space, and the Unicode space separators and line and paragraph
   * separators.
   */
  const Whitespace: set<char> := {
    '\U{9}', '\U{A}', '\U{B}', '\U{C}', '\U{D}',
    '\U{1C}', '\U{1D}', '\U{1E}', '\U{1F}', '\U{20}',
    '\U{85}', '\U{A0}', '\U{1680}',
    '\U{2000}', '\U{2001}', '\U{2002}', '\U{2003}', '\U{2004}', '\U{2005}',
    '\U{2006}', '\U{2007}', '\U{2008}', '\U{2009}', '\U{200A}',
    '\U{2028}', '\U{2029}', '\U{202F}', '\U{205F}', '\U{3000}'
  }

  /** Python's `str.isspace()` for one character: the characters `str.strip()` removes. */
  predicate IsSpace(c: char)
    ensures IsSpace(c) <==> c in Whitespace
  {
    var n := c as int;
    (9 <= n <= 13) || (28 <= n <= 32) || n == 0x85 || n == 0xA0 || n == 0x1680
    || (0x2000 <= n <= 0x200A) || n == 0x2028 || n == 0x2029 || n == 0x202F
    || n == 0x205F || n == 0x3000
  }

  /** `s.lstrip()`. */
  function StripStart(s: string): (r: string)
    ensures |r| <= |s| && r == s[|s| - |r|..]
    ensures forall k :: 0 <= k < |s| - |r| ==> IsSpace(s[k])
    ensures r != [] ==> !IsSpace(r[0])
    decreases |s|
  {
    if s != [] && IsSpace(s[0]) then StripStart(s[1..]) else s
  }

  /** `s.rstrip()`. */
  function StripEnd(s: string): (r: string)
    ensures |r| <= |s| && r == s[..|r|]
    ensures forall k :: |r| <= k < |s| ==> IsSpace(s[k])
    ensures r != [] ==> !IsSpace(r[|r| - 1])
    decreases |s|
  {
    if s != [] && IsSpace(s[|s| - 1]) then StripEnd(s[..|s| - 1]) else s
  }

  /** `s.strip()`: the slice of `s` left once the whitespace at both ends is removed. */
  function Strip(s: string): (r: string)
    ensures var a := |s| - |StripStart(s)|;
      a + |r| <= |s| && r == s[a..a + |r|]
      && (forall k :: 0 <= k < a ==> IsSpace(s[k]))
      && (forall k :: a + |r| <= k < |s| ==> IsSpace(s[k]))
    ensures r != [] ==> !IsSpace(r[0]) && !IsSpace(r[|r| - 1])
  {
    StripEnd(StripStart(s))
  }

  lemma FoldsToConcat(a: string, la: string, b: string, lb: string)
    requires FoldsTo(a, la) && FoldsTo(b, lb)
    ensures FoldsTo(a + b, la + lb)
  {
    forall k | 0 <= k < |a + b| ensures Fold((a + b)[k]) == (la + lb)[k] {
      if k < |a| {
        assert (a + b)[k] == a[k] && (la + lb)[k] == la[k];
      } else {
        assert (a + b)[k] == b[k - |a|] && (la + lb)[k] == lb[k - |a|];
      }
    }
  }

  lemma FoldsToStarts(a: string, lit: string, rest: string)
    requires FoldsTo(a, lit)
    ensures StartsWithCI(a + rest, lit)
  {
    forall k | 0 <= k < |lit| ensures Fold((a + rest)[k]) == lit[k] {
      assert (a + rest)[k] == a[k];
    }
  }

  /** An occurrence that does not start in the first `n` positions lies in what follows them. */
  lemma {:induction false} ContainsSkip(s: string, n: nat, lit: string)
    requires n <= |s| && Contains(s, lit)
    requires forall k :: 0 <= k < n ==> !StartsWith(s[k..], lit)
    ensures Contains(s[n..], lit)
    decreases n
  {
    if n > 0 {
      assert s[0..] == s;
      forall k | 0 <= k < n - 1 ensures !StartsWith(s[1..][k..], lit) {
        assert s[1..][k..] == s[k + 1..];
      }
      ContainsSkip(s[1..], n - 1, lit);
      assert s[1..][n - 1..] == s[n..];
    }
  }

  /** A literal whose first character never occurs in `s` is not a substring of `s`. */
  lemma {:induction false} AbsentFirstCharMeansAbsent(s: string, lit: string)
    requires lit != [] && lit[0] !in s
    ensures !Contains(s, lit)
    decreases |s|
  {
    if s != [] {
      assert forall c :: c in s[1..] ==> c in s;
      AbsentFirstCharMeansAbsent(s[1..], lit);
    }
  }
}

=== FILE: wrappers.dfy ===
/** The optional value the Python code expresses with `None`. */
module Wrappers {

  datatype Option<+T> = None | Some(value: T)
}
